=== FILE: README.md ===
# Parts360 inventory core, in Dafny

Parts360 is a small spare-parts inventory: an Express/Mongoose backend that
stores part records with an image embedding, answers "which stored parts look
like this photo", and feeds a dashboard; and a React frontend with a
searchable parts list and an add-part form. This project models the
deterministic core of both sides as pure functions over immutable data:

- `Parts` (parts.dfy): the part record, the two read projections, and the
  guard of the cosine-similarity score.
- `Categories` (categories.dfy): the server's category registry, seeded with
  five defaults, insertion-ordered, duplicate-free and only growing.
- `PartController` (controller.dfy): add, edit, delete, listing, dashboard
  statistics and image matching as transitions of the server state (the
  stored parts in collection order plus the registry).
- `Ranking` (ranking.dfy): a stable sort by descending key and the top-k
  selection shared by the matcher (by score, k = 3) and the dashboard (by
  creation time, k = 5).
- `PartsList` (parts_list.dfy): the list screen's search and category filter
  and the category toggle.
- `AddPart` (add_part.dfy): the add-part screen's handlers as state steps.
- `Text`, `Seqs`, `Common`: ASCII lower-casing, `includes` and `trim`;
  `filter` and the subsequence relation; an option type.

The embedding provider, the clock and the id generator are parameters: an
operation that embeds an image receives the provider's answer as
`provided: Option<Vector>` (`None` when the provider failed, which the
handler turns into a 500 with nothing stored), and `AddPart` receives the id
and the creation time. The similarity of two equal-length vectors is an
abstract `cosine: (Vector, Vector) -> real`, so ordering, bound and selection
are proved without floating-point arithmetic.

A part holds one `image` and one `embedding`. Its score is the similarity of
that embedding. The server stores an add without an image; only the form
blocks it. There is a single store.

## Model

| member | source | states |
|---|---|---|
| Parts.CosineSimilarity | backend/partController.js:13-14 | A missing vector or two vectors of different lengths score exactly 0; two present vectors of equal length score what the cosine formula gives. |
| Parts.CosineSimilaritySymmetric | backend/partController.js:13-14 | The guard treats both arguments alike, so the score is symmetric whenever the formula is. |
| Categories.Register | backend/partController.js:48-50 | Registering a category keeps every earlier entry in place, adds at most one entry, afterwards holds exactly the old names plus the new one, and keeps a duplicate-free list duplicate-free. |
| Categories.RegisterOnce | backend/partController.js:48-50 | After registration in a duplicate-free list the name occurs exactly once. |
| Categories.RegisterPreservesValid | backend/partController.js:5 | A registry that starts with the five defaults and has no repeats keeps both properties through every registration. |
| Categories.RegisterTwiceGrowsByOne | backend/partController.js:156-158 | Two registrations of the same unseen name grow the list by exactly one entry. |
| Categories.InitialValid | backend/partController.js:5 | The five default categories are distinct. |
| Categories.DistinctOccursOnce | backend/partController.js:48 | In a list without repeats every member occurs exactly once, which is what the `includes` check before `push` maintains. |
| PartController.Init | backend/partController.js:5 | At process start the store keeps the parts it already holds while the registry is re-seeded with exactly the five defaults. |
| PartController.RestartForgetsCategories | backend/partController.js:5 | After a restart, every part of any store whose category is not a default is still stored but is not in the registry. |
| PartController.FindIndex | backend/partController.js:145-149 | Finds the first stored record with the id, or reports that no record has it. |
| PartController.AddPart | backend/partController.js:26-57 | A provider failure answers 500 and changes nothing; otherwise the old records stay in order, one record with the given id, fields, image, embedding and time is appended, the answer carries the id, and the registry becomes the old one with the category registered, only growing and staying valid. |
| PartController.UpdatePart | backend/partController.js:126-165 | Answers 500 exactly when an image is supplied and the provider fails, 404 exactly when otherwise no record has the id, and then nothing changes; on success only the first record with the id changes, its five fields take the sent values, its id and creation time stay, its image and embedding are replaced only when an image is supplied, and the registry becomes the old one with the category registered. |
| PartController.DeletePart | backend/partController.js:167-181 | Answers 404 exactly when no record has the id, and then nothing changes; otherwise the first record with the id is cut out, the rest keep their order, and the registry is untouched. |
| PartController.DeleteRemovesExactlyThatPart | backend/partController.js:170-176 | With unique ids a delete shortens the store by one, leaves no record with the id, keeps every other record, and keeps ids unique. |
| PartController.GetAllParts | backend/partController.js:93 | The listing has every record in order, each without its embedding and otherwise identical. |
| PartController.LowStockCount | backend/partController.js:103 | The low-stock count never exceeds the number of parts. |
| PartController.LowStockCountIsFilterLength | backend/partController.js:103 | The low-stock count equals the number of records whose stock is below 10. |
| PartController.LowStockCountAppend | backend/partController.js:103 | The low-stock count of two concatenated stores is the sum of their counts. |
| PartController.RecentParts | backend/partController.js:106-109 | The recent parts are min(5, total) records, newest first, without image or embedding, drawn from the stored records without repeating any record more often than it is stored, and no stored record left out is newer than any shown, and a record whose light form is shown fewer times than it is stored is no newer than any shown. |
| PartController.GetStats | backend/partController.js:100-115 | The totals are the number of records and the number of records with stock below 10, and the recent list is the newest-first selection of stored records described for `RecentParts`. |
| PartController.StatsAfterAdd | backend/partController.js:102-103 | A successful add raises the total by one and the low-stock figure by one exactly when the new part's stock is below 10. |
| PartController.TwoAddsGrowRegistryByOne | backend/partController.js:48-50 | Two successful adds with the same unregistered category append exactly that one name to the registry. |
| PartController.CategoryRegisteredOnce | backend/partController.js:48-50 | After a successful add or edit with category c, a valid registry holds c exactly once. |
| PartController.Rank | backend/partController.js:71-82 | The matches are min(3, total) entries in non-increasing score order, each a stored part with its own score, no stored record returned more often than it is stored, and no stored part left out scores above any returned match. |
| PartController.RankLeaderIsBest | backend/partController.js:81-82 | The first match scores at least as high as every stored part. |
| PartController.MatchPart | backend/partController.js:59-89 | The match request fails exactly when the query cannot be embedded; otherwise it answers the ranking described for `Rank`: min(3, total) distinct stored records with their own scores, best first. |
| PartController.Score | backend/partController.js:72 | A stored part without an embedding, or with one of another length than the query, scores 0; otherwise it scores the formula's value. |
| PartController.ScoreAll | backend/partController.js:71-78 | The scored list pairs each stored part, in store order, with its own score. |
| PartController.EmptyImageIsNoImage | backend/partController.js:140 | An edit carrying an empty image string gives the same reply and the same store as an edit carrying no image: it never fails on the provider and keeps the stored image and embedding. |
| AddPart.EmptyImageNotSubmitted | src/pages/AddPart.jsx:85 | A form whose image is missing or the empty string is not submitted and stays as it was. |
| Ranking.Insert | backend/partController.js:81 | Inserting into a descending list keeps it descending and adds exactly that element. |
| Ranking.SortDescending | backend/partController.js:81 | The sorted list is a permutation of the input in non-increasing key order. |
| Ranking.TopK | backend/partController.js:81-82 | The selection has min(k, n) elements in non-increasing key order, is a sub-multiset of the input, and every element it leaves behind ranks no higher than every element it keeps. |
| Ranking.TopKSelects | backend/partController.js:82 | Cutting a descending list after n elements leaves nothing behind that outranks what is kept. |
| Ranking.TopKLeftOut | backend/partController.js:82 | An input element not selected ranks no higher than any selected element. |
| Ranking.TopKMembers | backend/partController.js:82 | Every selected element is an input element. |
| PartsList.FilterParts | src/pages/PartsList.jsx:46-62 | The shown parts are an order-preserving subsequence of the parts holding every part that matches the query and the selected category, with its multiplicity, and nothing else; an empty query with no selected category shows everything. |
| PartsList.FilterPartsIsAdmits | src/pages/PartsList.jsx:49-59 | The search stage followed by the category stage is a single filter by both conditions. |
| PartsList.FilterPartsSound | src/pages/PartsList.jsx:49-59 | Every shown part is a stored part whose lower-cased name or number contains the lower-cased query, and whose category equals the selected one when one is selected. |
| PartsList.FilterPartsIgnoresCase | src/pages/PartsList.jsx:50-53 | Queries that differ only in letter case show the same parts. |
| PartsList.FilterPartsIdempotent | src/pages/PartsList.jsx:46-62 | Filtering the shown parts again with the same query and category shows the same parts. |
| PartsList.ToggleCategory | src/pages/PartsList.jsx:101 | The selection is cleared exactly when the clicked category is the selected one (or is empty), and otherwise becomes the clicked category. |
| PartsList.ToggleCategoryTwice | src/pages/PartsList.jsx:101 | Clicking the same category twice, starting from no selection or from that category, returns to the starting selection. |
| Seqs.Filter | src/pages/PartsList.jsx:51 | The filtered list holds each admitted element with its multiplicity and nothing else, as a subsequence of the input. |
| Seqs.FilterIdempotent | src/pages/PartsList.jsx:58 | Filtering a filtered list by the same condition changes nothing. |
| Seqs.FilterFuse | src/pages/PartsList.jsx:51-58 | Two filters in a row equal one filter by both conditions. |
| Text.Lower | src/pages/PartsList.jsx:50 | Lower-casing keeps the length, turns every upper-case letter A-Z into its lower-case letter, and keeps every other character. |
| Text.Contains | src/pages/PartsList.jsx:52-53 | The empty needle is found in every string, and a found needle is no longer than the string. |
| Text.ContainsIffOccurs | src/pages/PartsList.jsx:52-53 | `includes` holds exactly when the needle occurs at some position of the string. |
| Text.LowerNormalizes | src/pages/PartsList.jsx:50 | Lower-casing keeps the length, leaves no upper-case letter, and is idempotent. |
| Text.SpanStart | src/pages/AddPart.jsx:74 | The scan for the start of the trimmed text stops at the first character that is not white space, having passed only white space. |
| Text.SpanEnd | src/pages/AddPart.jsx:74 | The scan back for the end of the trimmed text stops just after the last character that is not white space, having passed only white space. |
| Text.Trim | src/pages/AddPart.jsx:74 | The trimmed string is a block of the input surrounded only by white space, and neither starts nor ends with white space. |
| Text.TrimBlankIffAllSpace | src/pages/AddPart.jsx:74 | A string trims to nothing exactly when it is all white space. |
| AddPart.HandleChange | src/pages/AddPart.jsx:66-71 | The named field takes the typed value and every other field and the rest of the page are unchanged. |
| AddPart.RemoveImage | src/pages/AddPart.jsx:62-64 | The image is cleared and nothing else changes. |
| AddPart.HandleAddCategory | src/pages/AddPart.jsx:73-81 | A name that trims to nothing changes nothing; otherwise the trimmed name is appended to the local list, chosen in the form with the other fields kept, the input is cleared and closed, and the image is kept. |
| AddPart.BlankCategoryIgnored | src/pages/AddPart.jsx:74 | A new-category name made only of white space leaves the page unchanged. |
| AddPart.AddCategoryRepeats | src/pages/AddPart.jsx:76 | The local list is not deduplicated: confirming a name it already holds adds a second copy. |
| AddPart.HandleSubmit | src/pages/AddPart.jsx:83-123 | Without an image nothing is sent and nothing changes; otherwise the body carries every form field and the image, an accepted request empties all five fields and clears the image and keeps the rest, and a rejected or failed request changes nothing. |

## Left out

- The floating-point cosine formula (backend/partController.js:15-23) is the abstract `cosine` parameter; its range and the 0/0 case of zero vectors are not modelled.
- PartController.Rank: the `accuracy` percentage (the score times 100, rounded) is not attached to the matches, because it is floating-point rounding.
- The embedding provider (backend/embeddingService.js) returns random vectors; it is the `provided` parameter, and its answer for an add, edit or match is an input.
- Ids (the current time in milliseconds, as text) and the `createdAt` default are parameters of `AddPart`; id uniqueness is not guaranteed by the model and is a precondition only where a lemma needs it.
- The MongoDB driver (backend/db.js, the schema as a driver object, `find`, `countDocuments`, `findOneAndUpdate`, `findOneAndDelete`) is a plain sequence in insertion order; storage failures (the other 500 paths) are not modelled.
- Tie order: the model's sorts are stable, so equal scores or equal creation times keep store order; JavaScript's sort is stable too, while MongoDB's order for equal `createdAt` is unspecified.
- `parseInt(stock)` and its NaN cases: the server-side stock is an `int`, the form's stock is text, and the conversion between them is not modelled.
- Request bodies with missing fields: every descriptive field is taken to be present; how Mongoose treats `undefined` values in an update is not modelled.
- `getCategories` returns the registry unchanged; it is the `categories` field of the server state and needs no function of its own.
- Express routing and static serving (backend/server.js); edit and delete are modelled although the server registers no route for them.
- Console logging (`console.log` and `console.error` in backend/partController.js, backend/embeddingService.js and the pages) has no effect on the modelled state and is dropped.
- React rendering and browser APIs: fetch, FileReader, the paste listener, `handleImageUpload`, alerts, the `loading` flag, the category refresh after a successful submit, the new-category input's change, open and cancel handlers, the closing of the filter menu on a category click (src/pages/PartsList.jsx:102), and the other pages and components.
- Text handling is ASCII only: `toLowerCase` maps A-Z and `trim` drops space and tab through carriage return; Unicode case mapping and Unicode white space are not modelled.
- Concurrent requests mutating the shared registry and store are not modelled; every operation is one atomic step.
- AddPart.HandleChange: only the five named inputs of the form are modelled; an input with another `name` would add a new key to the form object.

=== FILE: add_part.dfy ===
/** The add-part screen as a state machine: the form record, the image
    preview, the locally known categories and the new-category input, and
    the handlers that move between states. */
module AddPart {
  import opened Common
  import opened Text
  import Parts

  /** The five form inputs, all kept as the text the user typed. */
  datatype Form = Form(name: string, number: string, category: string, stock: string, description: string)

  /** The `name` attribute of a form input. */
  datatype Field = Name | Number | Category | Stock | Description

  function Get(form: Form, field: Field): string {
    match field
    case Name => form.name
    case Number => form.number
    case Category => form.category
    case Stock => form.stock
    case Description => form.description
  }

  const EmptyForm := Form("", "", "", "", "")

  datatype Page = Page(
    image: Option<string>,
    categories: seq<string>,
    addingCategory: bool,
    newCategory: string,
    form: Form)

  /** Typing into a form input: that field takes the typed value, every
      other field and the rest of the page stay as they were. */
  function HandleChange(page: Page, field: Field, value: string): (r: Page)
    ensures Get(r.form, field) == value
    ensures forall other :: other != field ==> Get(r.form, other) == Get(page.form, other)
    ensures r.(form := page.form) == page
  {
    var form := match field
      case Name => page.form.(name := value)
      case Number => page.form.(number := value)
      case Category => page.form.(category := value)
      case Stock => page.form.(stock := value)
      case Description => page.form.(description := value);
    page.(form := form)
  }

  /** Discarding the chosen image. */
  function RemoveImage(page: Page): (r: Page)
    ensures r.image.None?
    ensures r.(image := page.image) == page
  {
    page.(image := None)
  }

  /** Confirming a new category: a blank name changes nothing; otherwise the
      trimmed name is appended to the local list (even if already there),
      chosen in the form, and the input is cleared and closed. */
  function HandleAddCategory(page: Page): (r: Page)
    ensures Trim(page.newCategory) == "" ==> r == page
    ensures Trim(page.newCategory) != "" ==>
      && r.categories == page.categories + [Trim(page.newCategory)]
      && Get(r.form, Category) == Trim(page.newCategory)
      && (forall other :: other != Category ==> Get(r.form, other) == Get(page.form, other))
      && r.newCategory == ""
      && !r.addingCategory
      && r.image == page.image
  {
    var name := Trim(page.newCategory);
    if name == "" then page
    else
      page.(categories := page.categories + [name],
            form := page.form.(category := name),
            newCategory := "",
            addingCategory := false)
  }

  /** A new-category name made only of white space is ignored. */
  lemma BlankCategoryIgnored(page: Page)
    requires forall k :: 0 <= k < |page.newCategory| ==> IsSpace(page.newCategory[k])
    ensures HandleAddCategory(page) == page
  {
    TrimBlankIffAllSpace(page.newCategory);
  }

  /** The local list is not deduplicated: confirming a name it already holds
      adds a second copy. */
  lemma AddCategoryRepeats(page: Page)
    requires Trim(page.newCategory) != "" && Trim(page.newCategory) in page.categories
    ensures multiset(HandleAddCategory(page).categories)[Trim(page.newCategory)]
              == multiset(page.categories)[Trim(page.newCategory)] + 1
    ensures multiset(HandleAddCategory(page).categories)[Trim(page.newCategory)] >= 2
  {
    var name := Trim(page.newCategory);
    assert name in multiset(page.categories);
  }

  /** An empty image string is falsy: the form with one is not submitted, just
      as the form with no image is not. */
  lemma EmptyImageNotSubmitted(page: Page, response: Response)
    requires page.image == Some("") || page.image.None?
    ensures HandleSubmit(page, response) == (page, None)
  {
  }

  /** The JSON body of the add request: the form fields plus the image. */
  datatype Body = Body(form: Form, image: string)

  /** How the add request ended: a 2xx answer, another answer, or no answer. */
  datatype Response = Accepted | Rejected | NetworkError

  /** Submitting the form. Without an image nothing is sent and nothing
      changes. Otherwise the body is sent, and only an accepted request
      resets the form and drops the image. */
  function HandleSubmit(page: Page, response: Response): (r: (Page, Option<Body>))
    ensures !Parts.HasImage(page.image) ==> r == (page, None)
    ensures Parts.HasImage(page.image) ==>
      && r.1.Some?
      && (forall f :: Get(r.1.value.form, f) == Get(page.form, f))
      && r.1.value.image == page.image.value
    ensures Parts.HasImage(page.image) && response == Accepted ==>
      && (forall f :: Get(r.0.form, f) == "")
      && r.0.image.None?
      && r.0.(form := page.form, image := page.image) == page
    ensures response != Accepted ==> r.0 == page
  {
    if !Parts.HasImage(page.image) then (page, None)
    else
      var body := Body(page.form, page.image.value);
      if response == Accepted then (page.(form := EmptyForm, image := None), Some(body))
      else (page, Some(body))
  }
}

=== FILE: categories.dfy ===
/** The server's category registry: an insertion-ordered list of category
    names, seeded with five defaults, that only ever grows and never holds a
    name twice. */
module Categories {

  const Initial: seq<string> := ["Engine", "Brakes", "Suspension", "Electrical", "Body"]

  predicate Distinct(s: seq<string>) {
    forall i, j :: 0 <= i < j < |s| ==> s[i] != s[j]
  }

  /** `longer` starts with all of `shorter`, in the same order. */
  predicate Extends(shorter: seq<string>, longer: seq<string>) {
    |shorter| <= |longer| && longer[..|shorter|] == shorter
  }

  /** The invariant every reachable registry satisfies. */
  predicate Valid(cats: seq<string>) {
    Distinct(cats) && Extends(Initial, cats)
  }

  /** Appends `c` unless the registry already knows it. */
  function Register(cats: seq<string>, c: string): (r: seq<string>)
    ensures Extends(cats, r) && |r| <= |cats| + 1
    ensures forall x :: x in r <==> x in cats || x == c
    ensures Distinct(cats) ==> Distinct(r)
  {
    if c in cats then cats else cats + [c]
  }

  lemma InitialValid()
    ensures Valid(Initial)
  {
  }

  lemma ExtendsTransitive(a: seq<string>, b: seq<string>, c: seq<string>)
    requires Extends(a, b) && Extends(b, c)
    ensures Extends(a, c)
  {
    assert c[..|a|] == c[..|b|][..|a|];
  }

  /** Registering keeps the registry valid and keeps every earlier entry in
      its place. */
  lemma RegisterPreservesValid(cats: seq<string>, c: string)
    ensures Valid(cats) ==> Valid(Register(cats, c))
  {
    if Valid(cats) {
      ExtendsTransitive(Initial, cats, Register(cats, c));
    }
  }

  /** In a list without repeats, a member occurs exactly once. */
  lemma {:induction false} DistinctOccursOnce(s: seq<string>, x: string)
    requires Distinct(s) && x in s
    ensures multiset(s)[x] == 1
    decreases |s|
  {
    assert s == [s[0]] + s[1..];
    if s[0] == x {
      assert x !in s[1..];
    } else {
      DistinctOccursOnce(s[1..], x);
    }
  }

  /** After registration the name is in the registry exactly once. */
  lemma RegisterOnce(cats: seq<string>, c: string)
    requires Distinct(cats)
    ensures multiset(Register(cats, c))[c] == 1
  {
    DistinctOccursOnce(Register(cats, c), c);
  }

  /** Registering a name a second time changes nothing, so two parts with the
      same unseen category grow the registry by exactly one entry. */
  lemma RegisterTwiceGrowsByOne(cats: seq<string>, c: string)
    requires c !in cats
    ensures Register(Register(cats, c), c) == Register(cats, c)
    ensures |Register(cats, c)| == |cats| + 1
  {
  }
}

=== FILE: common.dfy ===
/** Shared definitions: an optional value, used both for fields a record may
    lack and for the outcome of a call that can fail. */
module Common {

  datatype Option<+T> = None | Some(value: T)

  function Min(a: int, b: int): int {
    if a < b then a else b
  }
}

=== FILE: controller.dfy ===
/** The request handlers of the parts API, as pure transitions of the server
    state: the stored parts in collection order and the category registry.
    The embedding provider, the clock and the id generator are parameters. */
module PartController {
  import opened Common
  import opened Parts
  import opened Ranking
  import Seqs
  import Categories

  /** How many matches the matcher returns. */
  const MatchLimit: nat := 3
  /** How many recent parts the dashboard shows. */
  const RecentLimit: nat := 5
  /** Parts with fewer units than this count as low on stock. */
  const LowStockThreshold: int := 10

  datatype Server = Server(parts: seq<Part>, categories: seq<string>)

  /** The state at process start: the collection keeps whatever it already
      stored, while the in-memory registry is re-seeded with the defaults, so
      a stored part's category need not be registered. */
  function Init(stored: seq<Part>): (s: Server)
    ensures s.parts == stored
    ensures Categories.Valid(s.categories) && |s.categories| == |Categories.Initial|
  {
    Server(stored, Categories.Initial)
  }

  /** After a restart, a part stored under a category outside the defaults
      is in the store but not in the registry. */
  lemma RestartForgetsCategories(stored: seq<Part>, p: Part)
    requires p in stored && p.category !in Categories.Initial
    ensures p in Init(stored).parts && p.category !in Init(stored).categories
  {
  }

  /** What a handler answers: 201 with the new id, 200 with the updated
      record, 200 after a delete, 404, or 500. */
  datatype Reply = Created(partId: string) | Updated(part: Part) | Deleted | NotFound | Failed

  /** The first stored part carrying `id`, as the collection's
      find-one-by-id finds it. */
  function FindIndex(parts: seq<Part>, id: string): (r: Option<nat>)
    ensures r.Some? ==> r.value < |parts| && parts[r.value].id == id
    ensures r.Some? ==> forall j :: 0 <= j < r.value ==> parts[j].id != id
    ensures r.None? <==> forall j :: 0 <= j < |parts| ==> parts[j].id != id
    decreases |parts|
  {
    if parts == [] then None
    else if parts[0].id == id then Some(0)
    else
      match FindIndex(parts[1..], id)
      case None => None
      case Some(i) => Some(i + 1)
  }

  /** Adding a part: embed the image, store the record with a fresh id and
      the current time, then register its category. `provided` is the
      embedding provider's answer, `None` when it failed; a failure answers
      500 and stores nothing. */
  function AddPart(s: Server, f: Fields, image: Option<string>, id: string, now: int,
                   provided: Option<Vector>): (r: (Server, Reply))
    ensures provided.None? ==> r == (s, Failed)
    ensures provided.Some? ==>
      && r.1 == Created(id)
      && |r.0.parts| == |s.parts| + 1
      && r.0.parts[..|s.parts|] == s.parts
      && var p := r.0.parts[|s.parts|];
         p.id == id && FieldsOf(p) == f && p.image == image
         && p.embedding == provided && p.createdAt == now
    ensures provided.Some? ==> r.0.categories == Categories.Register(s.categories, f.category)
    ensures Categories.Extends(s.categories, r.0.categories)
    ensures provided.Some? ==> f.category in r.0.categories
    ensures Categories.Valid(s.categories) ==> Categories.Valid(r.0.categories)
  {
    match provided
    case None => (s, Failed)
    case Some(embedding) =>
      var p := Part(id, f.name, f.number, f.category, f.stock, f.description, image, provided, now);
      Categories.RegisterPreservesValid(s.categories, f.category);
      (Server(s.parts + [p], Categories.Register(s.categories, f.category)), Created(id))
  }

  /** Editing a part: the five descriptive fields are overwritten; the image
      and its embedding are replaced only when an image is supplied, and the
      embedding is then computed before the record is looked up, so a
      provider failure answers 500 even for an unknown id. An unknown id
      answers 404. Only a successful edit registers the category. */
  function UpdatePart(s: Server, id: string, f: Fields, image: Option<string>,
                      provided: Option<Vector>): (r: (Server, Reply))
    ensures r.1.Failed? <==> HasImage(image) && provided.None?
    ensures r.1.NotFound? <==> !r.1.Failed? && forall j :: 0 <= j < |s.parts| ==> s.parts[j].id != id
    ensures r.1.Failed? || r.1.NotFound? ==> r.0 == s
    ensures r.1.Failed? || r.1.NotFound? || r.1.Updated?
    ensures r.1.Updated? ==>
      && FindIndex(s.parts, id).Some?
      && var i := FindIndex(s.parts, id).value;
         var prior := s.parts[i];
         && |r.0.parts| == |s.parts|
         && (forall j :: 0 <= j < |s.parts| && j != i ==> r.0.parts[j] == s.parts[j])
         && r.0.parts[i] == r.1.part
         && FieldsOf(r.1.part) == f
         && r.1.part.id == id && r.1.part.createdAt == prior.createdAt
         && (HasImage(image) ==> r.1.part.image == image && r.1.part.embedding == provided)
         && (!HasImage(image) ==> r.1.part.image == prior.image && r.1.part.embedding == prior.embedding)
         && f.category in r.0.categories
         && r.0.categories == Categories.Register(s.categories, f.category)
    ensures Categories.Extends(s.categories, r.0.categories)
    ensures Categories.Valid(s.categories) ==> Categories.Valid(r.0.categories)
  {
    if HasImage(image) && provided.None? then (s, Failed)
    else
      match FindIndex(s.parts, id)
      case None => (s, NotFound)
      case Some(i) =>
        var prior := s.parts[i];
        var edited := prior.(name := f.name, number := f.number, category := f.category,
                           stock := f.stock, description := f.description);
        var p := if HasImage(image) then edited.(image := image, embedding := provided) else edited;
        Categories.RegisterPreservesValid(s.categories, f.category);
        (Server(s.parts[i := p], Categories.Register(s.categories, f.category)), Updated(p))
  }

  /** An empty image string is falsy: an edit that carries one behaves exactly
      like an edit that carries no image, keeping the stored image and
      embedding and never calling the provider. */
  lemma EmptyImageIsNoImage(s: Server, id: string, f: Fields, provided: Option<Vector>)
    ensures UpdatePart(s, id, f, Some(""), provided) == UpdatePart(s, id, f, None, provided)
    ensures UpdatePart(s, id, f, Some(""), provided).1.Failed? == false
  {
  }

  /** Deleting a part: the first record with the id is removed and nothing
      else changes; an unknown id answers 404 and changes nothing. */
  function DeletePart(s: Server, id: string): (r: (Server, Reply))
    ensures r.1.Deleted? || r.1.NotFound?
    ensures r.1.NotFound? <==> forall j :: 0 <= j < |s.parts| ==> s.parts[j].id != id
    ensures r.1.NotFound? ==> r.0 == s
    ensures r.1.Deleted? ==>
      && FindIndex(s.parts, id).Some?
      && var i := FindIndex(s.parts, id).value;
         && r.0.parts == s.parts[..i] + s.parts[i + 1..]
         && s.parts[i].id == id
         && r.0.categories == s.categories
  {
    match FindIndex(s.parts, id)
    case None => (s, NotFound)
    case Some(i) => (s.(parts := s.parts[..i] + s.parts[i + 1..]), Deleted)
  }

  /** No two stored parts share an id. */
  predicate UniqueIds(parts: seq<Part>) {
    forall i, j :: 0 <= i < j < |parts| ==> parts[i].id != parts[j].id
  }

  /** With unique ids, a delete removes the one record carrying the id and
      keeps every other record, in order. */
  lemma DeleteRemovesExactlyThatPart(s: Server, id: string)
    requires UniqueIds(s.parts)
    ensures var r := DeletePart(s, id);
      r.1.Deleted? ==>
        && |r.0.parts| == |s.parts| - 1
        && (forall p :: p in r.0.parts ==> p.id != id)
        && (forall p :: p in s.parts && p.id != id ==> p in r.0.parts)
        && UniqueIds(r.0.parts)
  {
    var r := DeletePart(s, id);
    if r.1.Deleted? {
      var i := FindIndex(s.parts, id).value;
      var rest := r.0.parts;
      forall k | 0 <= k < |rest|
        ensures rest[k].id != id
        ensures rest[k] == s.parts[if k < i then k else k + 1]
      {
      }
      forall p | p in s.parts && p.id != id
        ensures p in rest
      {
        var j :| 0 <= j < |s.parts| && s.parts[j] == p;
        assert rest[if j < i then j else j - 1] == p;
      }
    }
  }

  /** The parts listing: every record, in order, without its embedding. */
  function GetAllParts(parts: seq<Part>): (r: seq<Part>)
    ensures |r| == |parts|
    ensures forall i :: 0 <= i < |parts| ==>
      r[i].embedding.None? && r[i].(embedding := parts[i].embedding) == parts[i]
  {
    seq(|parts|, i requires 0 <= i < |parts| => WithoutEmbedding(parts[i]))
  }

  predicate IsLowStock(p: Part) {
    p.stock < LowStockThreshold
  }

  /** How many parts are low on stock. */
  function LowStockCount(parts: seq<Part>): (n: nat)
    ensures n <= |parts|
    decreases |parts|
  {
    if parts == [] then 0
    else (if IsLowStock(parts[0]) then 1 else 0) + LowStockCount(parts[1..])
  }

  /** The count agrees with the reference reading: the length of the list of
      low-stock parts. */
  lemma {:induction false} LowStockCountIsFilterLength(parts: seq<Part>)
    ensures LowStockCount(parts) == |Seqs.Filter(parts, IsLowStock)|
    decreases |parts|
  {
    if parts != [] {
      LowStockCountIsFilterLength(parts[1..]);
    }
  }

  lemma {:induction false} LowStockCountAppend(a: seq<Part>, b: seq<Part>)
    ensures LowStockCount(a + b) == LowStockCount(a) + LowStockCount(b)
    decreases |a|
  {
    if a != [] {
      assert (a + b)[1..] == a[1..] + b;
      LowStockCountAppend(a[1..], b);
    } else {
      assert a + b == b;
    }
  }

  function Lightened(parts: seq<Part>): (r: seq<Part>)
    ensures |r| == |parts|
  {
    seq(|parts|, i requires 0 <= i < |parts| => WithoutHeavyFields(parts[i]))
  }

  /** The dashboard's recent parts: the newest records by creation time,
      newest first, without image or embedding; no record left out is newer
      than any record shown. */
  function RecentParts(parts: seq<Part>): (r: seq<Part>)
    ensures |r| == Min(RecentLimit, |parts|)
    ensures Descending(r, CreatedAt)
    ensures forall q :: q in r ==> q.image.None? && q.embedding.None? && q in Lightened(parts)
    ensures multiset(r) <= multiset(Lightened(parts))
    ensures forall x :: multiset(r)[x] < multiset(Lightened(parts))[x] ==>
              forall k :: 0 <= k < |r| ==> x.createdAt <= r[k].createdAt
    ensures forall p :: p in parts && WithoutHeavyFields(p) !in r ==>
              forall k :: 0 <= k < |r| ==> p.createdAt <= r[k].createdAt
  {
    var light := Lightened(parts);
    var r := TopK(light, CreatedAt, RecentLimit);
    forall q | q in r
      ensures q.image.None? && q.embedding.None? && q in light
    {
      TopKMembers(light, CreatedAt, RecentLimit, q);
      LightenedHasNoHeavyFields(parts, q);
    }
    forall p | p in parts && WithoutHeavyFields(p) !in r
      ensures forall k :: 0 <= k < |r| ==> p.createdAt <= r[k].createdAt
    {
      LeftOutIsOlder(parts, p);
    }
    r
  }

  lemma LightenedHasNoHeavyFields(parts: seq<Part>, q: Part)
    requires q in Lightened(parts)
    ensures q.image.None? && q.embedding.None?
  {
    var light := Lightened(parts);
    var j :| 0 <= j < |light| && light[j] == q;
  }

  lemma LeftOutIsOlder(parts: seq<Part>, p: Part)
    requires p in parts
    requires WithoutHeavyFields(p) !in TopK(Lightened(parts), CreatedAt, RecentLimit)
    ensures var r := TopK(Lightened(parts), CreatedAt, RecentLimit);
      forall k :: 0 <= k < |r| ==> p.createdAt <= r[k].createdAt
  {
    var light := Lightened(parts);
    var j :| 0 <= j < |parts| && parts[j] == p;
    assert light[j] == WithoutHeavyFields(p);
    TopKLeftOut(light, CreatedAt, RecentLimit, j);
  }

  datatype Stats = Stats(totalParts: nat, lowStock: nat, recentParts: seq<Part>)

  /** The dashboard figures: how many parts there are, how many are low on
      stock, and the most recently created parts. */
  function GetStats(parts: seq<Part>): (r: Stats)
    ensures r.totalParts == |parts|
    ensures r.lowStock == |Seqs.Filter(parts, IsLowStock)| && r.lowStock <= r.totalParts
    ensures |r.recentParts| == Min(RecentLimit, |parts|)
    ensures r.recentParts == RecentParts(parts)
  {
    LowStockCountIsFilterLength(parts);
    Stats(|parts|, LowStockCount(parts), RecentParts(parts))
  }

  /** A successful add grows the total by one and the low-stock figure by
      one exactly when the new part is low on stock. */
  lemma StatsAfterAdd(s: Server, f: Fields, image: Option<string>, id: string, now: int, embedding: Vector)
    ensures
      var after := GetStats(AddPart(s, f, image, id, now, Some(embedding)).0.parts);
      var before := GetStats(s.parts);
      && after.totalParts == before.totalParts + 1
      && after.lowStock == before.lowStock + (if f.stock < LowStockThreshold then 1 else 0)
  {
    var parts' := AddPart(s, f, image, id, now, Some(embedding)).0.parts;
    var p := parts'[|s.parts|];
    assert parts' == s.parts + [p];
    LowStockCountAppend(s.parts, [p]);
    LowStockCountIsFilterLength(s.parts);
    LowStockCountIsFilterLength(parts');
  }

  /** After a successful add or edit with category `c`, a valid registry
      holds `c` exactly once. */
  lemma CategoryRegisteredOnce(s: Server, id: string, f: Fields, image: Option<string>, now: int,
                               provided: Option<Vector>)
    requires Categories.Valid(s.categories)
    ensures var r := AddPart(s, f, image, id, now, provided);
      r.1.Created? ==> multiset(r.0.categories)[f.category] == 1
    ensures var r := UpdatePart(s, id, f, image, provided);
      r.1.Updated? ==> multiset(r.0.categories)[f.category] == 1
  {
    var a := AddPart(s, f, image, id, now, provided);
    var u := UpdatePart(s, id, f, image, provided);
    if a.1.Created? {
      Categories.DistinctOccursOnce(a.0.categories, f.category);
    }
    if u.1.Updated? {
      Categories.DistinctOccursOnce(u.0.categories, f.category);
    }
  }

  /** Two successful adds with the same category not yet registered grow
      the registry by exactly one entry. */
  lemma TwoAddsGrowRegistryByOne(s: Server, f1: Fields, f2: Fields, image1: Option<string>,
                                 image2: Option<string>, id1: string, id2: string,
                                 now1: int, now2: int, e1: Vector, e2: Vector)
    requires f1.category == f2.category && f1.category !in s.categories
    ensures var s1 := AddPart(s, f1, image1, id1, now1, Some(e1)).0;
      var s2 := AddPart(s1, f2, image2, id2, now2, Some(e2)).0;
      |s2.categories| == |s.categories| + 1 && s2.categories == s.categories + [f1.category]
  {
    Categories.RegisterTwiceGrowsByOne(s.categories, f1.category);
  }

  /** A stored part together with its similarity to the query. */
  datatype Scored = Scored(part: Part, score: real)

  function ScoreOf(m: Scored): real {
    m.score
  }

  /** A stored part's score against the query embedding: 0 when the part
      has no embedding or one of another length. */
  function Score(query: Vector, p: Part, cosine: (Vector, Vector) -> real): (r: real)
    ensures p.embedding.None? || |p.embedding.value| != |query| ==> r == 0.0
    ensures p.embedding.Some? && |p.embedding.value| == |query| ==> r == cosine(query, p.embedding.value)
  {
    CosineSimilarity(Some(query), p.embedding, cosine)
  }

  /** Every stored part, in store order, paired with its own score. */
  function ScoreAll(parts: seq<Part>, query: Vector, cosine: (Vector, Vector) -> real): (r: seq<Scored>)
    ensures |r| == |parts|
    ensures forall i :: 0 <= i < |r| ==> r[i].part == parts[i] && r[i].score == Score(query, parts[i], cosine)
  {
    seq(|parts|, i requires 0 <= i < |parts| => Scored(parts[i], Score(query, parts[i], cosine)))
  }

  /** The ranking of the matcher: every stored part is scored against the
      query, and the best three are returned, best first, each with its own
      score; no part left out scores above any returned match. */
  function Rank(parts: seq<Part>, query: Vector, cosine: (Vector, Vector) -> real): (r: seq<Scored>)
    ensures |r| == Min(MatchLimit, |parts|)
    ensures Descending(r, ScoreOf)
    ensures forall m :: m in r ==> m.part in parts && m.score == Score(query, m.part, cosine)
    ensures multiset(r) <= multiset(ScoreAll(parts, query, cosine))
    ensures forall x :: multiset(r)[x] < multiset(ScoreAll(parts, query, cosine))[x] ==>
              forall k :: 0 <= k < |r| ==> x.score <= r[k].score
    ensures forall p :: p in parts && Scored(p, Score(query, p, cosine)) !in r ==>
              forall k :: 0 <= k < |r| ==> Score(query, p, cosine) <= r[k].score
  {
    var all := ScoreAll(parts, query, cosine);
    var r := TopK(all, ScoreOf, MatchLimit);
    forall m | m in r
      ensures m.part in parts && m.score == Score(query, m.part, cosine)
    {
      TopKMembers(all, ScoreOf, MatchLimit, m);
      ScoredFromStore(parts, query, cosine, m);
    }
    forall p | p in parts && Scored(p, Score(query, p, cosine)) !in r
      ensures forall k :: 0 <= k < |r| ==> Score(query, p, cosine) <= r[k].score
    {
      LeftOutScoresLower(parts, query, cosine, p);
    }
    r
  }

  /** Each scored entry is a stored part with its own score. */
  lemma ScoredFromStore(parts: seq<Part>, query: Vector, cosine: (Vector, Vector) -> real, m: Scored)
    requires m in ScoreAll(parts, query, cosine)
    ensures m.part in parts && m.score == Score(query, m.part, cosine)
  {
    var all := ScoreAll(parts, query, cosine);
    var j :| 0 <= j < |all| && all[j] == m;
    assert m.part == parts[j];
  }

  lemma LeftOutScoresLower(parts: seq<Part>, query: Vector, cosine: (Vector, Vector) -> real, p: Part)
    requires p in parts
    requires Scored(p, Score(query, p, cosine)) !in TopK(ScoreAll(parts, query, cosine), ScoreOf, MatchLimit)
    ensures var r := TopK(ScoreAll(parts, query, cosine), ScoreOf, MatchLimit);
      forall k :: 0 <= k < |r| ==> Score(query, p, cosine) <= r[k].score
  {
    var all := ScoreAll(parts, query, cosine);
    var j :| 0 <= j < |parts| && parts[j] == p;
    assert all[j] == Scored(p, Score(query, p, cosine));
    TopKLeftOut(all, ScoreOf, MatchLimit, j);
  }

  /** The best match scores at least as high as every stored part. */
  lemma RankLeaderIsBest(parts: seq<Part>, query: Vector, cosine: (Vector, Vector) -> real, p: Part)
    requires p in parts
    ensures var r := Rank(parts, query, cosine);
      |r| > 0 && Score(query, p, cosine) <= r[0].score
  {
    var r := Rank(parts, query, cosine);
    var m := Scored(p, Score(query, p, cosine));
    if m in r {
      var k :| 0 <= k < |r| && r[k] == m;
    }
  }

  datatype MatchReply = Matches(top: seq<Scored>) | MatchFailed

  /** The match endpoint: embed the query image (`provided`, `None` when the
      provider failed, which answers 500) and rank the stored parts. */
  function MatchPart(parts: seq<Part>, provided: Option<Vector>,
                     cosine: (Vector, Vector) -> real): (r: MatchReply)
    ensures r.MatchFailed? <==> provided.None?
    ensures r.Matches? ==> |r.top| == Min(MatchLimit, |parts|) && Descending(r.top, ScoreOf)
    ensures r.Matches? ==> forall m :: m in r.top ==> m.part in parts
    ensures r.Matches? ==> r.top == Rank(parts, provided.value, cosine)
  {
    match provided
    case None => MatchFailed
    case Some(query) => Matches(Rank(parts, query, cosine))
  }
}

=== FILE: parts.dfy ===
/** The part record the inventory stores, the projections the read endpoints
    apply to it, and the length guard of the similarity score. */
module Parts {
  import opened Common

  /** An image embedding. */
  type Vector = seq<real>

  /** One stored spare part. `image` and `embedding` are absent in the
      projections that drop them; `createdAt` is a timestamp in milliseconds. */
  datatype Part = Part(
    id: string,
    name: string,
    number: string,
    category: string,
    stock: int,
    description: string,
    image: Option<string>,
    embedding: Option<Vector>,
    createdAt: int)

  /** The descriptive fields a client sends when adding or editing a part. */
  datatype Fields = Fields(
    name: string,
    number: string,
    category: string,
    stock: int,
    description: string)

  function FieldsOf(p: Part): Fields {
    Fields(p.name, p.number, p.category, p.stock, p.description)
  }

  /** Truthiness of an image payload in JavaScript: present and non-empty. */
  predicate HasImage(image: Option<string>) {
    image.Some? && image.value != ""
  }

  /** The listing projection: the record without its embedding. */
  function WithoutEmbedding(p: Part): Part {
    p.(embedding := None)
  }

  /** The dashboard projection: the record without image and embedding. */
  function WithoutHeavyFields(p: Part): Part {
    p.(image := None, embedding := None)
  }

  function CreatedAt(p: Part): real {
    p.createdAt as real
  }

  /** The similarity of two embeddings. Only the guard is modelled: a missing
      vector or a length mismatch scores exactly 0; two vectors of equal
      length score whatever `cosine` says, the floating-point arithmetic of
      the real formula being outside the model. */
  function CosineSimilarity(a: Option<Vector>, b: Option<Vector>, cosine: (Vector, Vector) -> real): (r: real)
    ensures (a.None? || b.None? || |a.value| != |b.value|) ==> r == 0.0
    ensures (a.Some? && b.Some? && |a.value| == |b.value|) ==> r == cosine(a.value, b.value)
  {
    if a.None? || b.None? || |a.value| != |b.value| then 0.0
    else cosine(a.value, b.value)
  }

  /** The guard treats its two arguments alike, so the score is symmetric
      whenever the underlying formula is. */
  lemma CosineSimilaritySymmetric(a: Option<Vector>, b: Option<Vector>, cosine: (Vector, Vector) -> real)
    requires forall x, y :: cosine(x, y) == cosine(y, x)
    ensures CosineSimilarity(a, b, cosine) == CosineSimilarity(b, a, cosine)
  {
    if a.Some? && b.Some? && |a.value| == |b.value| {
      assert cosine(a.value, b.value) == cosine(b.value, a.value);
    }
  }
}

=== FILE: parts_list.dfy ===
/** The parts inventory screen: the search box and category filter applied
    to the listed parts, and the category toggle of the filter menu. */
module PartsList {
  import opened Parts
  import opened Text
  import opened Seqs

  /** The name or the number contains the query, ignoring letter case. */
  predicate MatchesQuery(p: Part, query: string) {
    Contains(Lower(p.name), Lower(query)) || Contains(Lower(p.number), Lower(query))
  }

  /** What the screen shows for a part: an empty query or an empty selected
      category imposes nothing. */
  predicate Admits(p: Part, query: string, selected: string) {
    (query == "" || MatchesQuery(p, query)) && (selected == "" || p.category == selected)
  }

  /** The text search stage, applied only to a non-empty query. */
  function Searched(parts: seq<Part>, query: string): seq<Part> {
    if query != "" then Filter(parts, (p: Part) => MatchesQuery(p, query)) else parts
  }

  /** The category stage, applied only when a category is selected. */
  function InCategory(parts: seq<Part>, selected: string): seq<Part> {
    if selected != "" then Filter(parts, (p: Part) => p.category == selected) else parts
  }

  /** The text search, then the category filter. */
  function FilterParts(parts: seq<Part>, query: string, selected: string): (r: seq<Part>)
    ensures forall p :: multiset(r)[p] == if Admits(p, query, selected) then multiset(parts)[p] else 0
    ensures IsSubsequence(r, parts)
    ensures query == "" && selected == "" ==> r == parts
  {
    FilterPartsIsAdmits(parts, query, selected);
    InCategory(Searched(parts, query), selected)
  }

  /** The two stages together are one filter by `Admits`. */
  lemma FilterPartsIsAdmits(parts: seq<Part>, query: string, selected: string)
    ensures InCategory(Searched(parts, query), selected) == Filter(parts, (p: Part) => Admits(p, query, selected))
  {
    var admits := (p: Part) => Admits(p, query, selected);
    var byQuery := (p: Part) => MatchesQuery(p, query);
    var byCategory := (p: Part) => p.category == selected;
    if query != "" && selected != "" {
      FilterFuse(parts, byQuery, byCategory, admits);
    } else if query != "" {
      FilterCongruent(parts, byQuery, admits);
    } else if selected != "" {
      FilterCongruent(parts, byCategory, admits);
    } else {
      FilterKeepsAll(parts, admits);
    }
  }

  /** Every shown part contains the query in its name or number (ignoring
      case) and has the selected category. */
  lemma FilterPartsSound(parts: seq<Part>, query: string, selected: string, p: Part)
    requires p in FilterParts(parts, query, selected)
    ensures p in parts
    ensures query != "" ==> Contains(Lower(p.name), Lower(query)) || Contains(Lower(p.number), Lower(query))
    ensures selected != "" ==> p.category == selected
  {
    var r := FilterParts(parts, query, selected);
    assert multiset(r)[p] > 0;
  }

  /** Queries that differ only in letter case show the same parts. */
  lemma FilterPartsIgnoresCase(parts: seq<Part>, q1: string, q2: string, selected: string)
    requires Lower(q1) == Lower(q2)
    ensures FilterParts(parts, q1, selected) == FilterParts(parts, q2, selected)
  {
    assert |q1| == |Lower(q1)| && |q2| == |Lower(q2)|;
    FilterPartsIsAdmits(parts, q1, selected);
    FilterPartsIsAdmits(parts, q2, selected);
    FilterCongruent(parts, (p: Part) => Admits(p, q1, selected), (p: Part) => Admits(p, q2, selected));
  }

  /** Filtering the shown parts again with the same inputs shows the same
      parts. */
  lemma FilterPartsIdempotent(parts: seq<Part>, query: string, selected: string)
    ensures FilterParts(FilterParts(parts, query, selected), query, selected)
              == FilterParts(parts, query, selected)
  {
    var admits := (p: Part) => Admits(p, query, selected);
    FilterPartsIsAdmits(parts, query, selected);
    FilterPartsIsAdmits(FilterParts(parts, query, selected), query, selected);
    FilterIdempotent(parts, admits);
  }

  /** Clicking a category in the filter menu: clicking the selected one
      clears the selection, clicking any other selects it. */
  function ToggleCategory(selected: string, clicked: string): (r: string)
    ensures r == "" <==> selected == clicked || clicked == ""
    ensures r != "" ==> r == clicked
  {
    if selected == clicked then "" else clicked
  }

  /** A second click on the same category undoes the first, when the first
      started from no selection or from that category. */
  lemma ToggleCategoryTwice(selected: string, clicked: string)
    requires selected == "" || selected == clicked
    ensures ToggleCategory(ToggleCategory(selected, clicked), clicked) == selected
  {
  }
}

=== FILE: ranking.dfy ===
/** Ranking by a real-valued key, highest first, and keeping the best few:
    the matcher sorts by descending score and keeps three, the dashboard
    query sorts by descending creation time and keeps five. */
module Ranking {

  /** Keys never increase from left to right. */
  predicate Descending<T>(s: seq<T>, key: T -> real) {
    forall i, j :: 0 <= i < j < |s| ==> key(s[i]) >= key(s[j])
  }

  /** Places `x` in front of the first element whose key is not higher than
      its own, so that it goes ahead of the elements with an equal key. */
  function Insert<T(!new)>(x: T, s: seq<T>, key: T -> real): (r: seq<T>)
    requires Descending(s, key)
    ensures Descending(r, key)
    ensures multiset(r) == multiset(s) + multiset{x}
    ensures forall y :: y in r ==> y == x || y in s
    decreases |s|
  {
    if s == [] then [x]
    else if key(x) >= key(s[0]) then [x] + s
    else
      var rest := Insert(x, s[1..], key);
      assert s == [s[0]] + s[1..];
      HeadDominates(s, key, x, rest);
      [s[0]] + rest
  }

  /** The head of a descending list, ranked above `x`, stays ahead of any
      list built from `x` and the list's tail. */
  lemma HeadDominates<T>(s: seq<T>, key: T -> real, x: T, rest: seq<T>)
    requires s != [] && Descending(s, key) && key(x) < key(s[0])
    requires Descending(rest, key)
    requires forall y :: y in rest ==> y == x || y in s[1..]
    ensures Descending([s[0]] + rest, key)
  {
    var t := [s[0]] + rest;
    forall i, j | 0 <= i < j < |t|
      ensures key(t[i]) >= key(t[j])
    {
      if i == 0 {
        assert t[j] == rest[j - 1] && t[j] in rest;
        if t[j] != x {
          var m :| 0 <= m < |s[1..]| && s[1..][m] == t[j];
          assert s[m + 1] == t[j];
        }
      } else {
        assert t[i] == rest[i - 1] && t[j] == rest[j - 1];
      }
    }
  }

  /** A stable sort by descending key. */
  function SortDescending<T(!new)>(s: seq<T>, key: T -> real): (r: seq<T>)
    ensures Descending(r, key)
    ensures multiset(r) == multiset(s)
    ensures |r| == |s|
    decreases |s|
  {
    if s == [] then []
    else
      assert s == [s[0]] + s[1..];
      Insert(s[0], SortDescending(s[1..], key), key)
  }

  /** The `k` best elements of `s` by key, best first: as many as there are,
      up to `k`, each taken from `s`, and nothing left behind outranks any of
      them. */
  function TopK<T(!new)>(s: seq<T>, key: T -> real, k: nat): (r: seq<T>)
    ensures |r| == if |s| < k then |s| else k
    ensures Descending(r, key)
    ensures multiset(r) <= multiset(s)
    ensures forall x :: multiset(r)[x] < multiset(s)[x] ==>
              forall i :: 0 <= i < |r| ==> key(x) <= key(r[i])
  {
    var sorted := SortDescending(s, key);
    var n := if |s| < k then |s| else k;
    TopKSelects(sorted, n, key);
    sorted[..n]
  }

  /** Cutting a descending sequence after `n` elements leaves behind nothing
      that outranks what was kept. */
  lemma TopKSelects<T>(sorted: seq<T>, n: nat, key: T -> real)
    requires Descending(sorted, key)
    requires n <= |sorted|
    ensures multiset(sorted[..n]) <= multiset(sorted)
    ensures forall x :: multiset(sorted[..n])[x] < multiset(sorted)[x] ==>
              forall i :: 0 <= i < n ==> key(x) <= key(sorted[i])
  {
    assert sorted == sorted[..n] + sorted[n..];
    forall x | multiset(sorted[..n])[x] < multiset(sorted)[x]
      ensures forall i :: 0 <= i < n ==> key(x) <= key(sorted[i])
    {
      assert x in multiset(sorted[n..]);
      var j :| 0 <= j < |sorted[n..]| && sorted[n..][j] == x;
      assert sorted[n + j] == x;
    }
  }

  /** Everything the top-k selection returns comes from the input. */
  lemma TopKMembers<T(!new)>(s: seq<T>, key: T -> real, k: nat, x: T)
    requires x in TopK(s, key, k)
    ensures x in s
  {
    assert x in multiset(TopK(s, key, k));
  }

  /** An input element the selection does not return ranks no higher than
      anything it does return. */
  lemma TopKLeftOut<T(!new)>(s: seq<T>, key: T -> real, k: nat, j: int)
    requires 0 <= j < |s| && s[j] !in TopK(s, key, k)
    ensures forall i :: 0 <= i < |TopK(s, key, k)| ==> key(s[j]) <= key(TopK(s, key, k)[i])
  {
    var r := TopK(s, key, k);
    assert multiset(r)[s[j]] == 0;
    assert s[j] in multiset(s);
  }
}

=== FILE: seqs.dfy ===
/** Order-preserving selection from a sequence: JavaScript's
    `Array.prototype.filter`, and the subsequence relation it establishes. */
module Seqs {

  /** `a` can be obtained from `b` by deleting elements, keeping the order of
      the rest. */
  predicate IsSubsequence<T(==)>(a: seq<T>, b: seq<T>)
    decreases |b|
  {
    if a == [] then true
    else if b == [] then false
    else (a[0] == b[0] && IsSubsequence(a[1..], b[1..])) || IsSubsequence(a, b[1..])
  }

  /** `s.filter(keep)`: every element `keep` admits, with its multiplicity, in
      the original order; nothing else. */
  function Filter<T(!new)>(s: seq<T>, keep: T -> bool): (r: seq<T>)
    ensures forall x :: multiset(r)[x] == if keep(x) then multiset(s)[x] else 0
    ensures IsSubsequence(r, s)
    ensures |r| <= |s|
    decreases |s|
  {
    if s == [] then []
    else
      var rest := Filter(s[1..], keep);
      assert s == [s[0]] + s[1..];
      if keep(s[0]) then
        assert ([s[0]] + rest)[1..] == rest;
        [s[0]] + rest
      else rest
  }

  /** Membership reading of the multiset contract. */
  lemma FilterMembership<T(!new)>(s: seq<T>, keep: T -> bool, x: T)
    ensures x in Filter(s, keep) <==> x in s && keep(x)
  {
    var r := Filter(s, keep);
    assert x in r <==> multiset(r)[x] > 0;
    assert x in s <==> multiset(s)[x] > 0;
  }

  /** A filter keeps everything exactly when it admits every element. */
  lemma {:induction false} FilterKeepsAll<T(!new)>(s: seq<T>, keep: T -> bool)
    requires forall i :: 0 <= i < |s| ==> keep(s[i])
    ensures Filter(s, keep) == s
    decreases |s|
  {
    if s != [] {
      FilterKeepsAll(s[1..], keep);
    }
  }

  /** Two filters in a row are the filter by both conditions. */
  lemma {:induction false} FilterFuse<T(!new)>(s: seq<T>, f: T -> bool, g: T -> bool, both: T -> bool)
    requires forall x :: both(x) == (f(x) && g(x))
    ensures Filter(Filter(s, f), g) == Filter(s, both)
    decreases |s|
  {
    if s != [] {
      FilterFuse(s[1..], f, g, both);
      var rest := Filter(s[1..], f);
      if f(s[0]) {
        assert ([s[0]] + rest)[1..] == rest;
      }
    }
  }

  /** Filters by conditions that agree on every element agree. */
  lemma {:induction false} FilterCongruent<T(!new)>(s: seq<T>, f: T -> bool, g: T -> bool)
    requires forall i :: 0 <= i < |s| ==> f(s[i]) == g(s[i])
    ensures Filter(s, f) == Filter(s, g)
    decreases |s|
  {
    if s != [] {
      FilterCongruent(s[1..], f, g);
    }
  }

  /** Filtering what a filter returned changes nothing. */
  lemma FilterIdempotent<T(!new)>(s: seq<T>, keep: T -> bool)
    ensures Filter(Filter(s, keep), keep) == Filter(s, keep)
  {
    var r := Filter(s, keep);
    forall i | 0 <= i < |r|
      ensures keep(r[i])
    {
      FilterMembership(s, keep, r[i]);
    }
    FilterKeepsAll(r, keep);
  }
}

=== FILE: text.dfy ===
/** The string primitives the inventory screens rely on, restricted to ASCII:
    `toLowerCase`, `includes` and `trim`. */
module Text {

  predicate IsUpper(c: char) {
    'A' <= c <= 'Z'
  }

  /** `toLowerCase` of one character: A-Z map to a-z, everything else is kept. */
  function LowerChar(c: char): char {
    if IsUpper(c) then (c as int + 32) as char else c
  }

  /** `toLowerCase`: same length, every upper-case letter replaced by its
      lower-case letter, every other character kept as it was. */
  function Lower(s: string): (r: string)
    ensures |r| == |s|
    ensures forall i :: 0 <= i < |r| ==> !IsUpper(r[i])
    ensures forall i :: 0 <= i < |s| && !IsUpper(s[i]) ==> r[i] == s[i]
    ensures forall i :: 0 <= i < |s| && IsUpper(s[i]) ==> r[i] == (s[i] as int + 32) as char
  {
    seq(|s|, i requires 0 <= i < |s| => LowerChar(s[i]))
  }

  /** Lower-casing leaves no upper-case letter, keeps the length, and doing it
      twice is the same as doing it once. */
  lemma LowerNormalizes(s: string)
    ensures |Lower(s)| == |s|
    ensures forall i :: 0 <= i < |s| ==> !IsUpper(Lower(s)[i])
    ensures Lower(Lower(s)) == Lower(s)
  {
    assert forall i :: 0 <= i < |s| ==> LowerChar(LowerChar(s[i])) == LowerChar(s[i]);
  }

  /** `s.includes(sub)`: `sub` is a prefix of `s` or of one of its suffixes. */
  predicate Contains(s: string, sub: string): (b: bool)
    ensures sub == [] ==> b
    ensures b ==> |sub| <= |s|
    decreases |s|
  {
    sub <= s || (|s| > 0 && Contains(s[1..], sub))
  }

  /** Reference reading of `includes`: there is a position where `sub` occurs. */
  ghost predicate OccursAt(s: string, sub: string, i: int) {
    0 <= i <= |s| - |sub| && s[i..i + |sub|] == sub
  }

  lemma {:induction false} ContainsHasOccurrence(s: string, sub: string) returns (i: int)
    requires Contains(s, sub)
    ensures OccursAt(s, sub, i)
    decreases |s|
  {
    if sub <= s {
      i := 0;
    } else {
      var j := ContainsHasOccurrence(s[1..], sub);
      assert s[1..][j..j + |sub|] == s[j + 1..j + 1 + |sub|];
      i := j + 1;
    }
  }

  lemma {:induction false} OccurrenceIsContained(s: string, sub: string, i: int)
    requires OccursAt(s, sub, i)
    ensures Contains(s, sub)
    decreases |s|
  {
    if i > 0 {
      assert s[1..][i - 1..i - 1 + |sub|] == s[i..i + |sub|];
      OccurrenceIsContained(s[1..], sub, i - 1);
    }
  }

  /** `includes` holds exactly when there is a position where `sub` occurs. */
  lemma ContainsIffOccurs(s: string, sub: string)
    ensures Contains(s, sub) <==> exists i :: OccursAt(s, sub, i)
  {
    if Contains(s, sub) {
      var i := ContainsHasOccurrence(s, sub);
    }
    forall i | OccursAt(s, sub, i)
      ensures Contains(s, sub)
    {
      OccurrenceIsContained(s, sub, i);
    }
  }

  /** The characters JavaScript's `trim` removes, within ASCII: space and
      tab, line feed, vertical tab, form feed, carriage return. */
  predicate IsSpace(c: char) {
    c == ' ' || '\t' <= c <= '\r'
  }

  /** The first position at or after `i` that does not hold white space,
      or the end of `s`. */
  function SpanStart(s: string, i: nat): (n: nat)
    requires i <= |s|
    ensures i <= n <= |s|
    ensures forall k :: i <= k < n ==> IsSpace(s[k])
    ensures n < |s| ==> !IsSpace(s[n])
    decreases |s| - i
  {
    if i < |s| && IsSpace(s[i]) then SpanStart(s, i + 1) else i
  }

  /** Scanning back from `j`, the position just after the last character
      that is not white space, or `lo` if `s[lo..j]` is all white space. */
  function SpanEnd(s: string, lo: nat, j: nat): (m: nat)
    requires lo <= j <= |s|
    ensures lo <= m <= j
    ensures forall k :: m <= k < j ==> IsSpace(s[k])
    ensures m > lo ==> !IsSpace(s[m - 1])
    decreases j
  {
    if j > lo && IsSpace(s[j - 1]) then SpanEnd(s, lo, j - 1) else j
  }

  /** `r` is the block of `s` starting at `i`, and everything of `s` outside
      that block is white space. */
  ghost predicate BlockAmidSpace(s: string, r: string, i: int) {
    && 0 <= i <= |s| - |r|
    && r == s[i..i + |r|]
    && (forall k :: 0 <= k < i ==> IsSpace(s[k]))
    && (forall k :: i + |r| <= k < |s| ==> IsSpace(s[k]))
  }

  /** `s.trim()`: the block of `s` left after dropping leading and trailing
      white space. */
  function Trim(s: string): (r: string)
    ensures exists i :: BlockAmidSpace(s, r, i)
    ensures r != [] ==> !IsSpace(r[0]) && !IsSpace(r[|r| - 1])
  {
    var n := SpanStart(s, 0);
    var m := SpanEnd(s, n, |s|);
    assert BlockAmidSpace(s, s[n..m], n);
    s[n..m]
  }

  /** A string trims to nothing exactly when it is all white space. */
  lemma TrimBlankIffAllSpace(s: string)
    ensures Trim(s) == [] <==> forall k :: 0 <= k < |s| ==> IsSpace(s[k])
  {
  }
}
